=== FILE: README.md ===
# VS Code project launcher — a Dafny model of its core

The launcher is a small Windows desktop tool. It lists recently opened VS Code
workspace folders as a grid of buttons, newest first, and opens the clicked one in
the editor. This project models the logic under the user interface and proves
properties of it:

- **Workspace discovery** (`get_vscode_projects`). It finds the first existing
  `storage.json` of Code, Code - Insiders or VSCodium under `%APPDATA%` and takes
  the keys of `profileAssociations.workspaces`. It keeps the `file:///` URIs and
  percent-decodes each one into a Windows path. It keeps the paths that are
  directories and orders them by modification time, newest first, with a stable
  sort. Any failure along the way gives an empty list.
- **Executable lookup** (`find_vscode_executable`). It takes the first existing
  of four (or six) install locations. Otherwise it falls back to the first line
  printed by `where code`.
- **Launcher window**: the case-insensitive search filter and its project
  count, the column arithmetic of the button grid, and opening a project.
- **Folder-ignore dialog** (`CustomFolderDialog`): the `.ico` lookup for each
  project, the selection set (seeded from the ignored folders, then changed by
  toggles and returned as a list), and the dialog's grid, where the buttons
  whose path is already selected start out checked.

Modules, in dependency order:

- `Wrappers`: `Option` and `Result`.
- `Seqs`: filtering, subsequences, first match.
- `Text`: the few Python `str` operations used.
- `Percent`: percent-decoding as `urllib.parse.unquote` does it.
- `Paths`: `ntpath.join` and `ntpath.basename`.
- `StableSort`: `sorted(..., reverse=True)`.
- `Json`: the parsed storage document.
- `Host`: the environment and file system as values.
- `Discovery`, `Executable`, `Grid`, `Icons`, `Launcher` and `IgnoreDialog`: the
  program's own functions.

The environment, the file system, the output of `where code` and the success of
process creation are parameters of the functions. Nothing reads a disk or runs a
process.

## Model

| member | source | states |
|---|---|---|
| Discovery.StorageFile | vscode_project_launcher.py:100-113 | fails with `AppDataUnset` exactly when `APPDATA` is unset and with `NoStorageFile` exactly when none of the three candidate files exists; it fails with no other error, and on success it is the first existing candidate |
| Discovery.WorkspaceUris | vscode_project_launcher.py:116 | URIs are obtained exactly when the document, its `profileAssociations` value and that value's `workspaces` value are all objects, a missing key counting as `{}`; they are then the names of the `workspaces` members, each once, in order of first occurrence |
| Discovery.MissingAssociationsMeanNoUris | vscode_project_launcher.py:116 | a document without `profileAssociations` yields no URIs rather than an error |
| Discovery.StoredUris | vscode_project_launcher.py:114-116 | a failure to locate the file is passed on unchanged; once the file is found, an unreadable file gives `StorageUnreadable`, a document with a non-object on the way gives `StorageMalformed`, and otherwise the result is the workspace URIs of that document |
| Discovery.UriToPath | vscode_project_launcher.py:120 | the path produced never contains a forward slash |
| Discovery.FileUriRoundTrip | vscode_project_launcher.py:119-120 | a `file:///` URI made by percent-encoding a path is recognised as a file URI and decodes back to that path with `/` turned into `\` |
| Discovery.CleanedPaths | vscode_project_launcher.py:117-121 | one path per `file:///` URI, in order, each the decoding of the corresponding file URI |
| Discovery.CleanedPathsMembers | vscode_project_launcher.py:117-121 | a path is among the cleaned paths exactly when some file URI of the list decodes to it |
| Discovery.ProjectsFromUris | vscode_project_launcher.py:117-123 | a path is listed exactly when it is a directory that some file URI decodes to; the list is a permutation of the directory paths and is their stable sort by descending modification time (0 for a missing path) |
| Discovery.OnlyFileUrisMatter | vscode_project_launcher.py:118-121 | dropping all URIs of other schemes beforehand changes nothing |
| Discovery.Discover | vscode_project_launcher.py:98-126 | fails exactly when reading the stored URIs fails; otherwise it gives the projects of those URIs |
| Discovery.GetProjects | vscode_project_launcher.py:98-126 | any failure yields the empty list; on success a path is listed exactly when it is a directory contributed by a stored file URI; every listed path is a directory without `/`, newest first; on success the list is the stable descending sort by modification time of the directories the URIs give, so tied folders keep their discovery order and a folder two URIs decode to is listed twice |
| Discovery.BadStorageGivesNoProjects | vscode_project_launcher.py:114-126 | a storage file that cannot be read or parsed, or whose workspace entry is not an object, gives no projects |
| StableSort.SortDesc | vscode_project_launcher.py:123 | the result is a permutation of the input whose keys never increase |
| StableSort.SortDescStable | vscode_project_launcher.py:123 | the elements of each key keep their input order (Python's sort is stable) |
| StableSort.StableSortUnique | vscode_project_launcher.py:123 | any two sequences that are both stable descending sorts of the same input are equal, so the model's sort is the one `sorted(..., reverse=True)` computes |
| StableSort.ThreeElementsExample | vscode_project_launcher.py:123 | three elements with keys in the order b > c > a come out as b, c, a |
| Percent.Decode | vscode_project_launcher.py:120 | empty exactly for empty input and never longer; a leading well-formed escape `%XX` becomes the character with code XX, and any other leading character, a lone `%` included, is kept; a lone escape `%XX` decodes to one character. With `DecodeAppend` these clauses fix the result on every input |
| Percent.DecodeAppend | vscode_project_launcher.py:120 | when no well-formed escape begins in the last two characters of `a` followed by `b`, `unquote(a + b)` is `unquote(a) + unquote(b)` |
| Percent.DecodeKeepsMalformedPercent | vscode_project_launcher.py:120 | a `%` anywhere in the text that is not followed by two hexadecimal digits is kept, and decoding resumes at the next character |
| Percent.DecodeEncode | vscode_project_launcher.py:120 | decoding the percent-encoding of any text gives the text back |
| Percent.DecodeWithoutPercent | vscode_project_launcher.py:120 | text without `%` is left unchanged by `unquote` |
| Percent.DecodeEscapedSlash | vscode_project_launcher.py:120 | `%2F` and `%2f` both decode to `/` |
| Text.ReplaceSlashes | vscode_project_launcher.py:120 | same length, no `/` left, every `/` becomes `\` and every other character is kept |
| Text.Strip | vscode_project_launcher.py:89 | the result is the slice of the input between the first and last non-whitespace characters; it is empty exactly when the input is all whitespace |
| Text.FirstLine | vscode_project_launcher.py:89 | the first line is a prefix without line breaks that ends at a line break or at the end of the text |
| Text.FirstLineOfStripped | vscode_project_launcher.py:89 | a non-empty stripped output has a non-empty first line, so `splitlines()[0]` does not raise there |
| Text.Lower | vscode_project_launcher.py:328-329 | same length, each character mapped on its own, no upper-case letter left |
| Text.LowerIdempotent | vscode_project_launcher.py:328-329 | lower-casing twice equals lower-casing once |
| Text.ContainsIff | vscode_project_launcher.py:329 | `needle in hay` holds exactly when the needle occurs at some position |
| Json.Lookup | vscode_project_launcher.py:116 | `.get` finds a value exactly when some member has the name, and then the value of the last such member |
| Json.GetOrEmpty | vscode_project_launcher.py:116 | `.get(key, {})` is `{}` when no member has the name and the value `.get` finds otherwise |
| Json.Keys | vscode_project_launcher.py:116 | `.keys()` lists every member name exactly once and no other text |
| Json.KeysInFirstOccurrenceOrder | vscode_project_launcher.py:116 | `.keys()` lists the names in the order of their first occurrence in the document |
| Json.KeysOfDistinct | vscode_project_launcher.py:116 | for an object without repeated names the keys are its member names in document order |
| Paths.Join | vscode_project_launcher.py:72-80 | the result starts with the directory and ends with the name; a `\` is inserted exactly when the directory is more than a drive and does not already end in a separator |
| Paths.Basename | vscode_project_launcher.py:329 | the base name is the longest separator-free suffix of the path after its drive: it is preceded by a separator unless it reaches back to the drive |
| Paths.BasenameOfJoin | custom_folder_dialog.py:15 | the base name of a folder joined with a plain file name is that file name |
| Executable.InstallPaths | vscode_project_launcher.py:72-80 | two locations per install directory, both inside it: first one ending in `Microsoft VS Code\Code.exe`, then one ending in `Microsoft VS Code\bin\code.cmd` |
| Executable.Candidates | vscode_project_launcher.py:68-81 | the four base locations come first; the two 32-bit locations are appended exactly when `ProgramFiles(x86)` is set to a non-empty value |
| Executable.LookupPath | vscode_project_launcher.py:87-94 | a path is obtained exactly when `where` succeeded with non-blank output; it is the whole first line of the stripped output: a non-empty prefix without line breaks, followed by a line break or the end of the text |
| Executable.Locate | vscode_project_launcher.py:82-96 | the first existing candidate wins; with none, the `where` path is returned exactly when it exists; whatever is returned exists |
| Executable.FindExecutable | vscode_project_launcher.py:66-96 | whatever is returned exists, and the first existing candidate location is the answer whenever there is one |
| Executable.FallbackToLookup | vscode_project_launcher.py:86-96 | with no candidate present, the answer is the `where` path if it exists and nothing otherwise |
| Executable.X86IgnoredWhenEmpty | vscode_project_launcher.py:77-81 | an empty `ProgramFiles(x86)` gives the same answer as an unset one |
| Executable.BaseCandidateWins | vscode_project_launcher.py:82-85 | once one of the four base locations exists, the first such one is the answer, whatever the 32-bit directory and `where` say |
| Grid.Columns | vscode_project_launcher.py:319 | at least one column; the chosen number of 180-pixel buttons with 20-pixel gaps fits the width (or is the minimum of one) and one more would not |
| Grid.ColumnsMonotonic | vscode_project_launcher.py:319 | a wider area never has fewer columns |
| Grid.CellOf | vscode_project_launcher.py:322 | the column is below the column count and row times columns plus column is the button's index |
| Grid.CellIndexRoundTrip | vscode_project_launcher.py:322 | every cell within the column range is the cell of exactly the index it encodes |
| Grid.CellsRowMajor | vscode_project_launcher.py:321-325 | a later button lands strictly later in reading order, so no two buttons share a cell |
| Grid.PlacementsRowMajor | vscode_project_launcher.py:321-325 | all cells of a grid are in strict reading order |
| Launcher.FilterProjects | vscode_project_launcher.py:327-329 | the result is a subsequence of the projects holding exactly those whose lower-cased base name contains the lower-cased query, each as often as in the input |
| Launcher.MatchesIff | vscode_project_launcher.py:329 | a project matches exactly when the lower-cased query occurs at some position of its lower-cased base name |
| Launcher.EmptyQueryKeepsAll | vscode_project_launcher.py:329 | the empty query keeps every project in order |
| Launcher.QueryCaseIgnored | vscode_project_launcher.py:328-329 | a query and its lower-cased form select the same projects |
| Launcher.OpenWindow | vscode_project_launcher.py:166-167 | on opening, every project is on the grid and the count label matches the grid |
| Launcher.Search | vscode_project_launcher.py:327-331 | after a search the count label equals the number of shown projects, the shown projects are a subsequence of all projects, and exactly the matching ones are shown, each as often as it occurs in the full list |
| Launcher.SearchForgetsEarlierSearches | vscode_project_launcher.py:327-329 | a search filters the full list, so earlier searches leave no trace |
| Launcher.ClearingSearchRestores | vscode_project_launcher.py:327-329 | clearing the search shows every project again |
| Launcher.WindowCells | vscode_project_launcher.py:312-325 | one cell per shown project; with the column count computed from the viewport width (or the window width when there is no viewport), project `i` sits in a column below that count at row-major index `i`; cells are in strict reading order |
| Launcher.OpenProject | vscode_project_launcher.py:333-342 | the not-found message appears exactly when no executable is found; a launch happens exactly when one is found and process creation succeeds, and runs the executable `find_vscode_executable` returned, which exists, with the project path as its only argument |
| Icons.FindProjectIcon | custom_folder_dialog.py:11-20 | an icon is found exactly when the folder can be listed and some entry ends in `.ico` in any letter case; it is the folder joined with the first such entry |
| Icons.IconInsideFolder | custom_folder_dialog.py:13-15 | the icon path found lies in the folder and its base name ends in `.ico` |
| IgnoreDialog.InitialSelection | custom_folder_dialog.py:77-80 | the selection starts as exactly the ignored folders given, or empty when none are given |
| IgnoreDialog.Toggle | custom_folder_dialog.py:141-146 | after a toggle the path is selected exactly when its button is checked, and every other path keeps its state |
| IgnoreDialog.ToggleIdempotent | custom_folder_dialog.py:141-146 | the same toggle twice has the effect of once |
| IgnoreDialog.UncheckAbsentIsNoOp | custom_folder_dialog.py:146 | unchecking an unselected path changes nothing (`discard` does not raise) |
| IgnoreDialog.ToggleUndo | custom_folder_dialog.py:141-146 | a toggle that changes a path's state is undone by the opposite toggle |
| IgnoreDialog.ApplyTogglesMembership | custom_folder_dialog.py:141-146 | after any series of toggles a path is selected exactly when its last toggle checked it, or, when it was never toggled, when it was selected at the start |
| IgnoreDialog.SelectedPaths | custom_folder_dialog.py:148-149 | the list holds every selected path exactly once and nothing else |
| IgnoreDialog.DialogButtons | custom_folder_dialog.py:125-139 | one button per project in order, with its base name and its icon; a button starts checked exactly when its path is selected; button `i` sits in a column below the column count at row-major index `i` |
| IgnoreDialog.DialogButtonsRowMajor | custom_folder_dialog.py:132-139 | the dialog's buttons occupy distinct cells in reading order |

## Left out

- The Qt user interface is not modelled: widgets, styles, SVG title-bar icons, window dragging, maximising, timers, message boxes and the "no projects" close-down. Only the decisions behind the widgets are modelled.
- Real input and output are parameters. Environment variables are a map and the file system is a record of functions (existence, directory test, modification time, storage-file reading, directory listing). The result of `where code` is a value.
- Process creation is a boolean parameter of `Launcher.OpenProject`. The Windows creation flags and the one-second delayed close are not modelled.
- Logging and `print` are not modelled. They do not affect any result.
- Parsing of the JSON text is not modelled, because it belongs to the standard library. The storage file is an already-parsed document, and a read or parse error is one `ReadFailed` outcome.
- Percent.Decode: a `%XX` escape becomes the character whose code is XX. The UTF-8 assembly of escaped bytes at 0x80 and above is not modelled, because it depends on the standard library's decoder with `errors='replace'`. The result is the same whenever every escape spells a code below 0x80. Folders whose names contain non-ASCII characters, which VS Code writes as UTF-8 escapes such as `%C3%A9`, decode differently: the model gives one character per escaped byte.
- Text.Lower: only ASCII letters are lower-cased. Python's full Unicode case mapping is not modelled.
- Paths.Join and Paths.Basename cover drive-letter and plain paths. UNC shares (`\\server\share`) and joining an absolute second component are not modelled. The source only joins plain components.
- Discovery.SortKey uses an integer modification time. Python's floating-point `getmtime` is not modelled. The integer is any measure that keeps the order of the real times, such as `st_mtime_ns`, because only the comparison of times matters.
- Executable.FindExecutable: an `OSError` from `subprocess.run` other than `FileNotFoundError` escapes the source's handler. The model treats every failure of `where code` as "no path".
- Environment variable names are compared exactly. The case-insensitivity of Windows environment names is not modelled.
- IgnoreDialog.SelectedPaths: the order of `list(set)` depends on hashing. The contract states the contents and not the order.
- Launcher.WindowCells: the width of the window and of the scroll area's viewport are inputs. The `AttributeError` fallback between them is modelled, but not how Qt computes them.
- Decoding and sorting are not shown end to end on concrete URIs. The general contracts of `Discovery.ProjectsFromUris` and `StableSort.StableSortUnique` already fix the order.

=== FILE: discovery.dfy ===
/** Workspace discovery (`get_vscode_projects`): find the editor's
    `storage.json`, take the keys of `profileAssociations.workspaces`, turn
    every `file:///` URI into a Windows path, keep the existing directories,
    and order them by modification time, newest first. Any failure on the way
    yields no projects at all. */
module Discovery {
  import opened Wrappers
  import opened Seqs
  import opened Text
  import opened Percent
  import opened Paths
  import opened Json
  import opened Host
  import opened StableSort

  /** The editor variants whose storage is probed, in probing order. */
  const StorageVariants: seq<string> := ["Code", "Code - Insiders", "VSCodium"]

  /** `%APPDATA%\<variant>\User\globalStorage\storage.json` for each variant. */
  function StorageCandidates(appData: string): seq<Path> {
    seq(|StorageVariants|, i requires 0 <= i < |StorageVariants| =>
      JoinAll(appData, [StorageVariants[i], "User", "globalStorage", "storage.json"]))
  }

  /** Why discovery produced nothing. Each one is caught and logged by the source. */
  datatype DiscoveryError =
    | AppDataUnset                  // os.environ['APPDATA'] raised KeyError
    | NoStorageFile                 // none of the candidates exists
    | StorageUnreadable(path: Path) // open or json.load raised
    | StorageMalformed(path: Path)  // .get or .keys reached a non-object

  /** The storage file to read: the first existing candidate. */
  function StorageFile(env: Env, fs: FileSystem): (r: Result<Path, DiscoveryError>)
    ensures r == Failure(AppDataUnset) <==> "APPDATA" !in env
    ensures r == Failure(NoStorageFile) <==>
      "APPDATA" in env && forall i :: 0 <= i < |StorageCandidates(env["APPDATA"])| ==> !fs.pathExists(StorageCandidates(env["APPDATA"])[i])
    ensures r.Success? ==> "APPDATA" in env
    ensures r.Failure? ==> r.error == AppDataUnset || r.error == NoStorageFile
    ensures r.Success? ==>
      exists i :: IsFirstWhere(StorageCandidates(env["APPDATA"]), fs.pathExists, i) && r.value == StorageCandidates(env["APPDATA"])[i]
  {
    if "APPDATA" !in env then Failure(AppDataUnset)
    else
      var candidates := StorageCandidates(env["APPDATA"]);
      match FirstIndex(candidates, fs.pathExists)
      case None => Failure(NoStorageFile)
      case Some(i) => Success(candidates[i])
  }

  const AssociationsKey := "profileAssociations"
  const WorkspacesKey := "workspaces"

  /** `storage_data.get('profileAssociations', {}).get('workspaces', {}).keys()`,
      or `None` where Python raises because a value is not a dictionary. A
      missing key stands for an empty dictionary. */
  function WorkspaceUris(doc: Json): (r: Option<seq<string>>)
    ensures r.Some? <==>
      && doc.JObject?
      && GetOrEmpty(doc.members, AssociationsKey).JObject?
      && GetOrEmpty(GetOrEmpty(doc.members, AssociationsKey).members, WorkspacesKey).JObject?
    ensures r.Some? ==>
      var workspaces := GetOrEmpty(GetOrEmpty(doc.members, AssociationsKey).members, WorkspacesKey).members;
      && Distinct(r.value)
      && (forall k :: k in r.value <==> HasName(workspaces, k))
      && InFirstOccurrenceOrder(workspaces, r.value)
  {
    match doc
    case JObject(top) =>
      (match GetOrEmpty(top, AssociationsKey)
       case JObject(associations) =>
         (match GetOrEmpty(associations, WorkspacesKey)
          case JObject(workspaces) =>
            KeysInFirstOccurrenceOrder(workspaces);
            Some(Keys(workspaces))
          case _ => None)
       case _ => None)
    case _ => None
  }

  /** A document without `profileAssociations` has no workspaces, and is not an error. */
  lemma MissingAssociationsMeanNoUris(members: seq<(string, Json)>)
    requires !HasName(members, AssociationsKey)
    ensures WorkspaceUris(JObject(members)) == Some([])
  {
    assert !HasName([], WorkspacesKey);
  }

  /** The workspace URIs recorded in the first existing storage file. */
  function StoredUris(env: Env, fs: FileSystem): (r: Result<seq<string>, DiscoveryError>)
    ensures StorageFile(env, fs).Failure? ==> r == Failure(StorageFile(env, fs).error)
    ensures StorageFile(env, fs).Success? ==>
      var path := StorageFile(env, fs).value;
      && (fs.readStorage(path).ReadFailed? ==> r == Failure(StorageUnreadable(path)))
      && (fs.readStorage(path).Parsed? && WorkspaceUris(fs.readStorage(path).doc).None? ==>
            r == Failure(StorageMalformed(path)))
      && (fs.readStorage(path).Parsed? && WorkspaceUris(fs.readStorage(path).doc).Some? ==>
            r == Success(WorkspaceUris(fs.readStorage(path).doc).value))
    ensures r.Success? ==> Distinct(r.value)
  {
    match StorageFile(env, fs)
    case Failure(e) => Failure(e)
    case Success(path) =>
      match fs.readStorage(path)
      case ReadFailed => Failure(StorageUnreadable(path))
      case Parsed(doc) =>
        match WorkspaceUris(doc)
        case None => Failure(StorageMalformed(path))
        case Some(uris) => Success(uris)
  }

  const FileScheme: string := "file:///"

  predicate IsFileUri(uri: string) {
    StartsWith(uri, FileScheme)
  }

  /** `unquote(uri[8:]).replace('/', '\\')` */
  function UriToPath(uri: string): (p: Path)
    ensures '/' !in p
  {
    var rest := if |uri| >= |FileScheme| then uri[|FileScheme|..] else [];
    ReplaceSlashes(Decode(rest))
  }

  /** A file URI produced by percent-encoding a path leads back to that path,
      with its forward slashes turned into backslashes. */
  lemma FileUriRoundTrip(path: string)
    ensures IsFileUri(FileScheme + Encode(path))
    ensures UriToPath(FileScheme + Encode(path)) == ReplaceSlashes(path)
  {
    var uri := FileScheme + Encode(path);
    assert uri[|FileScheme|..] == Encode(path);
    DecodeEncode(path);
  }

  /** Some URI in `uris` is a file URI whose path is `p`. */
  predicate Contributes(uris: seq<string>, p: Path) {
    exists i :: 0 <= i < |uris| && IsFileUri(uris[i]) && UriToPath(uris[i]) == p
  }

  /** The `for uri in project_uris` loop: the path of every file URI, in URI order. */
  function CleanedPaths(uris: seq<string>): (r: seq<Path>)
    ensures |r| == |Filter(uris, IsFileUri)|
    ensures forall i :: 0 <= i < |r| ==> r[i] == UriToPath(Filter(uris, IsFileUri)[i])
    decreases |uris|
  {
    if |uris| == 0 then []
    else if IsFileUri(uris[0]) then [UriToPath(uris[0])] + CleanedPaths(uris[1..])
    else CleanedPaths(uris[1..])
  }

  /** A path is among the cleaned paths exactly when some file URI decodes to it. */
  lemma {:induction false} CleanedPathsMembers(uris: seq<string>, p: Path)
    ensures p in CleanedPaths(uris) <==> Contributes(uris, p)
    decreases |uris|
  {
    if |uris| > 0 {
      CleanedPathsMembers(uris[1..], p);
      if Contributes(uris, p) && !(IsFileUri(uris[0]) && UriToPath(uris[0]) == p) {
        var i :| 0 <= i < |uris| && IsFileUri(uris[i]) && UriToPath(uris[i]) == p;
        assert i > 0 && uris[1..][i - 1] == uris[i];
      }
      if Contributes(uris[1..], p) {
        var i :| 0 <= i < |uris[1..]| && IsFileUri(uris[1..][i]) && UriToPath(uris[1..][i]) == p;
        assert uris[i + 1] == uris[1..][i];
      }
    }
  }

  /** The sort key: the modification time of an existing path, 0 otherwise. */
  function SortKey(fs: FileSystem): Path -> int {
    p => if fs.pathExists(p) then fs.mtime(p) else 0
  }

  /** The candidate folders before sorting: cleaned paths that are directories. */
  function Folders(uris: seq<string>, fs: FileSystem): seq<Path> {
    Filter(CleanedPaths(uris), fs.isDir)
  }

  /** The projects found for a list of workspace URIs. */
  function ProjectsFromUris(uris: seq<string>, fs: FileSystem): (r: seq<Path>)
    ensures forall p :: p in r <==> fs.isDir(p) && Contributes(uris, p)
    ensures multiset(r) == multiset(Folders(uris, fs))
    ensures IsStableSortDesc(Folders(uris, fs), r, SortKey(fs))
    ensures forall p :: p in r ==> '/' !in p
  {
    var folders := Folders(uris, fs);
    SortDescIsStableSort(folders, SortKey(fs));
    assert forall p :: p in CleanedPaths(uris) <==> Contributes(uris, p) by {
      forall p
        ensures p in CleanedPaths(uris) <==> Contributes(uris, p)
      {
        CleanedPathsMembers(uris, p);
      }
    }
    var r := SortDesc(folders, SortKey(fs));
    assert forall p :: p in r <==> p in folders by {
      forall p
        ensures p in r <==> p in folders
      {
        assert p in r <==> multiset(r)[p] > 0;
        assert p in folders <==> multiset(folders)[p] > 0;
      }
    }
    r
  }

  /** The outcome of a whole discovery pass. */
  function Discover(env: Env, fs: FileSystem): (r: Result<seq<Path>, DiscoveryError>)
    ensures r.Failure? <==> StoredUris(env, fs).Failure?
    ensures r.Success? ==> r.value == ProjectsFromUris(StoredUris(env, fs).value, fs)
  {
    match StoredUris(env, fs)
    case Failure(e) => Failure(e)
    case Success(uris) => Success(ProjectsFromUris(uris, fs))
  }

  /** `get_vscode_projects()`: the discovered projects, or none when anything failed. */
  function GetProjects(env: Env, fs: FileSystem): (r: seq<Path>)
    ensures Discover(env, fs).Failure? ==> r == []
    ensures StoredUris(env, fs).Failure? ==> r == []
    ensures StoredUris(env, fs).Success? ==>
      forall p :: p in r <==> fs.isDir(p) && Contributes(StoredUris(env, fs).value, p)
    ensures forall p :: p in r ==> fs.isDir(p) && '/' !in p
    ensures NonIncreasing(r, SortKey(fs))
    ensures StoredUris(env, fs).Success? ==>
      IsStableSortDesc(Folders(StoredUris(env, fs).value, fs), r, SortKey(fs))
  {
    Discover(env, fs).GetOr([])
  }

  /** A storage file that cannot be read or parsed, or whose workspace
      entry is not a dictionary, yields no projects. */
  lemma BadStorageGivesNoProjects(env: Env, fs: FileSystem)
    requires StorageFile(env, fs).Success?
    requires var read := fs.readStorage(StorageFile(env, fs).value);
      read.ReadFailed? || WorkspaceUris(read.doc).None?
    ensures GetProjects(env, fs) == []
  {
  }

  /** URIs of other schemes play no part: the result is what the file URIs alone give. */
  lemma {:induction false} OnlyFileUrisMatter(uris: seq<string>, fs: FileSystem)
    ensures ProjectsFromUris(uris, fs) == ProjectsFromUris(Filter(uris, IsFileUri), fs)
  {
    var f := Filter(uris, IsFileUri);
    FilterAll(f, IsFileUri);
    assert CleanedPaths(uris) == CleanedPaths(f);
  }
}

=== FILE: executable.dfy ===
/** Locating the editor executable (`find_vscode_executable`): the first
    existing path among the conventional install locations, else the first
    line printed by `where code` if that path exists, else nothing. */
module Executable {
  import opened Wrappers
  import opened Seqs
  import opened Text
  import opened Paths
  import opened Host

  const LocalAppData := "LOCALAPPDATA"
  const ProgramFiles := "ProgramFiles"
  const ProgramFilesX86 := "ProgramFiles(x86)"

  const InstallFolder := "Microsoft VS Code"
  const CodeExe := "Code.exe"
  const BinFolder := "bin"
  const CodeCmd := "code.cmd"

  /** `<dir>\Microsoft VS Code\Code.exe` and then `<dir>\Microsoft VS Code\bin\code.cmd`. */
  function InstallPaths(dir: Path): (r: seq<Path>)
    ensures |r| == 2 && dir <= r[0] && dir <= r[1]
    ensures EndsWith(r[0], InstallFolder + "\\" + CodeExe)
    ensures EndsWith(r[1], InstallFolder + "\\" + BinFolder + "\\" + CodeCmd)
  {
    JoinTwoSuffix(dir, InstallFolder, CodeExe);
    JoinThreeSuffix(dir, InstallFolder, BinFolder, CodeCmd);
    [Join(Join(dir, InstallFolder), CodeExe), Join(Join(Join(dir, InstallFolder), BinFolder), CodeCmd)]
  }

  /** The four locations probed always. */
  function BaseCandidates(env: Env): (r: seq<Path>)
    ensures |r| == 4
  {
    InstallPaths(Join(EnvGet(env, LocalAppData, ""), "Programs")) + InstallPaths(EnvGet(env, ProgramFiles, ""))
  }

  /** The probed locations, in order: the 32-bit install directory is added
      only when its variable is set to a non-empty value. */
  function Candidates(env: Env): (r: seq<Path>)
    ensures BaseCandidates(env) <= r
    ensures |r| == 4 || |r| == 6
    ensures |r| == 6 <==> EnvGet(env, ProgramFilesX86, "") != ""
    ensures |r| == 6 ==> r[4..] == InstallPaths(EnvGet(env, ProgramFilesX86, ""))
  {
    var x86 := EnvGet(env, ProgramFilesX86, "");
    if x86 != "" then
      BaseCandidates(env) + InstallPaths(x86)
    else BaseCandidates(env)
  }

  /** What running `where code` gave: a failure (non-zero exit status, or no
      `where` command) or its standard output. */
  datatype LookupOutcome = LookupFailed | LookupOutput(stdout: string)

  /** `result.stdout.strip().splitlines()[0]`, or nothing when the command
      failed or the `[0]` raised `IndexError`. */
  function LookupPath(lookup: LookupOutcome): (r: Option<Path>)
    ensures r.Some? <==> lookup.LookupOutput? && |Strip(lookup.stdout)| > 0
    ensures r.Some? ==> |r.value| > 0 && r.value <= Strip(lookup.stdout)
    ensures r.Some? ==> forall i :: 0 <= i < |r.value| ==> !IsLineBreak(r.value[i])
    ensures r.Some? && |r.value| < |Strip(lookup.stdout)| ==> IsLineBreak(Strip(lookup.stdout)[|r.value|])
  {
    match lookup
    case LookupFailed => None
    case LookupOutput(out) =>
      var text := Strip(out);
      if |text| == 0 then None
      else
        FirstLineOfStripped(out);
        Some(FirstLine(text))
  }

  /** The search itself, over any list of candidate locations: the first
      existing candidate, else the path `where code` reported if it exists. */
  function Locate(candidates: seq<Path>, fs: FileSystem, lookup: LookupOutcome): (r: Option<Path>)
    ensures r.Some? ==> fs.pathExists(r.value)
    ensures forall i :: IsFirstWhere(candidates, fs.pathExists, i) ==> r == Some(candidates[i])
    ensures (forall i :: 0 <= i < |candidates| ==> !fs.pathExists(candidates[i])) ==>
      (r.Some? <==> LookupPath(lookup).Some? && fs.pathExists(LookupPath(lookup).value))
    ensures (forall i :: 0 <= i < |candidates| ==> !fs.pathExists(candidates[i])) && r.Some? ==>
      r == LookupPath(lookup)
  {
    match FirstIndex(candidates, fs.pathExists)
    case Some(i) => Some(candidates[i])
    case None =>
      match LookupPath(lookup)
      case Some(p) => if fs.pathExists(p) then Some(p) else None
      case None => None
  }

  /** `find_vscode_executable()` */
  function FindExecutable(env: Env, fs: FileSystem, lookup: LookupOutcome): (r: Option<Path>)
    ensures r.Some? ==> fs.pathExists(r.value)
    ensures forall i :: IsFirstWhere(Candidates(env), fs.pathExists, i) ==> r == Some(Candidates(env)[i])
  {
    Locate(Candidates(env), fs, lookup)
  }

  /** With no install location present, the answer is the path `where code`
      reported, provided it exists, and nothing otherwise. */
  lemma FallbackToLookup(env: Env, fs: FileSystem, lookup: LookupOutcome)
    requires forall i :: 0 <= i < |Candidates(env)| ==> !fs.pathExists(Candidates(env)[i])
    ensures FindExecutable(env, fs, lookup)
         == if LookupPath(lookup).Some? && fs.pathExists(LookupPath(lookup).value) then LookupPath(lookup) else None
  {
    var c := Candidates(env);
    var r := Locate(c, fs, lookup);
    assert r.Some? ==> r == LookupPath(lookup);
  }

  /** The 32-bit location is not consulted when its variable is empty:
      the answer is the same as if the variable were not set at all. */
  lemma X86IgnoredWhenEmpty(env: Env, fs: FileSystem, lookup: LookupOutcome)
    requires EnvGet(env, ProgramFilesX86, "") == ""
    ensures FindExecutable(env, fs, lookup) == FindExecutable(env - {ProgramFilesX86}, fs, lookup)
  {
    var env' := env - {ProgramFilesX86};
    assert EnvGet(env', LocalAppData, "") == EnvGet(env, LocalAppData, "");
    assert EnvGet(env', ProgramFiles, "") == EnvGet(env, ProgramFiles, "");
    assert Candidates(env') == Candidates(env);
  }

  /** Once one of the four usual locations exists, neither the 32-bit
      location nor `where code` can change the answer. */
  lemma BaseCandidateWins(env: Env, fs: FileSystem, lookup: LookupOutcome, i: nat)
    requires IsFirstWhere(BaseCandidates(env), fs.pathExists, i)
    ensures FindExecutable(env, fs, lookup) == Some(BaseCandidates(env)[i])
  {
    FirstWhereOfPrefix(BaseCandidates(env), Candidates(env), fs.pathExists, i);
  }
}

=== FILE: grid.dfy ===
/** Placement of project buttons in a grid (`populate_projects` of the
    launcher window and of the ignore dialog): as many 180-pixel columns as
    fit the available width, never fewer than one, filled row by row. */
module Grid {

  const ButtonWidth: int := 180
  /** `grid_layout.setSpacing(20)` */
  const Spacing: int := 20
  /** `setContentsMargins(30, 30, 30, 30)`: left plus right. */
  const HorizontalMargins: int := 60

  /** The width left for buttons in a widget of width `width`. */
  function AvailableWidth(width: int): int {
    width - HorizontalMargins
  }

  /** `cols` buttons with a gap between neighbours fit into `width`. */
  predicate RowFits(cols: int, width: int) {
    cols * ButtonWidth + (cols - 1) * Spacing <= width
  }

  /** `max(1, (available + spacing) // (180 + spacing))`; Python's floor
      division and Dafny's division agree for the positive divisor. */
  function Columns(available: int): (cols: nat)
    ensures cols >= 1
    ensures cols == 1 || RowFits(cols, available)
    ensures !RowFits(cols + 1, available)
  {
    var c := (available + Spacing) / (ButtonWidth + Spacing);
    if c < 1 then 1 else c
  }

  /** Widening never removes a column. */
  lemma ColumnsMonotonic(a: int, b: int)
    requires a <= b
    ensures Columns(a) <= Columns(b)
  {
  }

  datatype Cell = Cell(row: nat, col: nat)

  /** `row, col = i // cols, i % cols` */
  function CellOf(i: nat, cols: nat): (c: Cell)
    requires cols >= 1
    ensures c.col < cols
    ensures c.row * cols + c.col == i
  {
    Cell(i / cols, i % cols)
  }

  /** The index of the button placed at `c`. */
  function IndexOf(c: Cell, cols: nat): nat {
    c.row * cols + c.col
  }

  /** Every cell inside the column range holds exactly one index. */
  lemma CellIndexRoundTrip(c: Cell, cols: nat)
    requires cols >= 1 && c.col < cols
    ensures CellOf(IndexOf(c, cols), cols) == c
  {
    var i := IndexOf(c, cols);
    var d := CellOf(i, cols);
    SameQuotient(c.row, c.col, d.row, d.col, cols);
  }

  /** Division with remainder is unique. */
  lemma SameQuotient(r1: nat, c1: nat, r2: nat, c2: nat, cols: nat)
    requires cols >= 1 && c1 < cols && c2 < cols
    requires r1 * cols + c1 == r2 * cols + c2
    ensures r1 == r2 && c1 == c2
  {
    assert (r1 + 1) * cols == r1 * cols + cols;
    assert (r2 + 1) * cols == r2 * cols + cols;
    MulMonotone(r2 + 1, r1, cols);
    MulMonotone(r1 + 1, r2, cols);
  }

  /** Multiplying by a positive width preserves order. */
  lemma {:induction false} MulMonotone(a: nat, b: nat, cols: nat)
    ensures a <= b ==> a * cols <= b * cols
    decreases b
  {
    if a < b {
      MulMonotone(a, b - 1, cols);
      assert b * cols == (b - 1) * cols + cols;
    }
  }

  /** `a` comes before `b` in reading order. */
  predicate RowMajorBefore(a: Cell, b: Cell) {
    a.row < b.row || (a.row == b.row && a.col < b.col)
  }

  /** Later buttons are placed later in reading order, so no two share a cell. */
  lemma CellsRowMajor(i: nat, j: nat, cols: nat)
    requires cols >= 1 && i < j
    ensures RowMajorBefore(CellOf(i, cols), CellOf(j, cols))
    ensures CellOf(i, cols) != CellOf(j, cols)
  {
    var a, b := CellOf(i, cols), CellOf(j, cols);
    assert (b.row + 1) * cols == b.row * cols + cols;
    MulMonotone(b.row + 1, a.row, cols);
    if a.row == b.row {
      assert a.col < b.col;
    }
  }

  /** The cells of `count` buttons laid out `cols` to a row. */
  function Placements(count: nat, cols: nat): (r: seq<Cell>)
    requires cols >= 1
    ensures |r| == count
    ensures forall i :: 0 <= i < count ==> r[i].col < cols && IndexOf(r[i], cols) == i
  {
    seq(count, i requires 0 <= i < count => CellOf(i, cols))
  }

  /** No two buttons share a cell, and they fill the grid in reading order. */
  lemma PlacementsRowMajor(count: nat, cols: nat)
    requires cols >= 1
    ensures forall i, j :: 0 <= i < j < count ==> RowMajorBefore(Placements(count, cols)[i], Placements(count, cols)[j])
  {
    forall i, j | 0 <= i < j < count
      ensures RowMajorBefore(Placements(count, cols)[i], Placements(count, cols)[j])
    {
      CellsRowMajor(i, j, cols);
    }
  }
}

=== FILE: host.dfy ===
/** What the launcher asks of its surroundings, passed in as values: the
    environment variables, and a snapshot of the filesystem. */
module Host {
  import opened Paths
  import opened Json

  /** Environment variables, by the name the launcher spells. */
  type Env = map<string, string>

  /** `os.environ.get(name, default)` */
  function EnvGet(env: Env, name: string, default: string): (v: string)
    ensures name in env ==> v == env[name]
    ensures name !in env ==> v == default
  {
    if name in env then env[name] else default
  }

  /** Opening and `json.load`-ing a file either fails (an exception) or yields a document. */
  datatype StorageRead = ReadFailed | Parsed(doc: Json)

  /** `os.listdir(path)`: the entry names in listing order, or the exception it raised. */
  datatype Listing = Entries(names: seq<string>) | NoSuchDirectory | ListingFailed

  /** `os.path.exists`, `os.path.isdir`, `os.path.getmtime`, reading
      `storage.json`, and `os.listdir`. `mtime` is any integer measure that
      keeps the order of the real modification times (`st_mtime_ns`, say). */
  datatype FileSystem = FileSystem(
    pathExists: Path -> bool,
    isDir: Path -> bool,
    mtime: Path -> int,
    readStorage: Path -> StorageRead,
    listDir: Path -> Listing)
}

=== FILE: icons.dfy ===
/** `find_project_icon`: the first `.ico` file in a project folder. */
module Icons {
  import opened Wrappers
  import opened Seqs
  import opened Text
  import opened Paths
  import opened Host

  /** `item.lower().endswith('.ico')` */
  predicate IsIconName(name: string) {
    EndsWith(Lower(name), ".ico")
  }

  /** The first entry of the listing, in listing order, whose name ends in
      `.ico` in any letter case, joined to the folder; nothing when there is
      none or the listing raised (a missing folder or any other error). */
  function FindProjectIcon(fs: FileSystem, dir: Path): (r: Option<Path>)
    ensures r.Some? <==>
      fs.listDir(dir).Entries? && exists i :: 0 <= i < |fs.listDir(dir).names| && IsIconName(fs.listDir(dir).names[i])
    ensures r.Some? ==>
      exists i :: IsFirstWhere(fs.listDir(dir).names, IsIconName, i) && r.value == Join(dir, fs.listDir(dir).names[i])
  {
    match fs.listDir(dir)
    case Entries(names) =>
      (match FirstIndex(names, IsIconName)
       case Some(i) => Some(Join(dir, names[i]))
       case None => None)
    case NoSuchDirectory => None
    case ListingFailed => None
  }

  /** Every name a Windows directory listing can hold is a single component. */
  predicate PlainNames(listing: Listing) {
    listing.Entries? ==> forall i :: 0 <= i < |listing.names| ==> NoSep(listing.names[i]) && ':' !in listing.names[i]
  }

  /** The icon found lies directly inside the folder and is named like an icon. */
  lemma IconInsideFolder(fs: FileSystem, dir: Path)
    requires PlainNames(fs.listDir(dir))
    ensures FindProjectIcon(fs, dir).Some? ==>
      dir <= FindProjectIcon(fs, dir).value && IsIconName(Basename(FindProjectIcon(fs, dir).value))
  {
    if FindProjectIcon(fs, dir).Some? {
      var names := fs.listDir(dir).names;
      var i := FirstIndex(names, IsIconName).value;
      assert |Lower(names[i])| >= 4;
      BasenameOfJoin(dir, names[i]);
    }
  }
}

=== FILE: ignore_dialog.dfy ===
/** The folder-ignore dialog (`CustomFolderDialog`): a set of selected
    project paths, seeded from the folders already ignored, changed one path
    at a time as buttons are toggled, and handed back as a list. */
module IgnoreDialog {
  import opened Wrappers
  import opened Seqs
  import opened Paths
  import opened Host
  import opened Grid
  import opened Icons

  /** `set(ignored_folders)`, or the empty set when none were given. */
  function InitialSelection(ignored: Option<seq<Path>>): (s: set<Path>)
    ensures forall p :: p in s <==> ignored.Some? && p in ignored.value
  {
    match ignored
    case None => {}
    case Some(folders) => set p | p in folders
  }

  /** `project_toggled`: `add` when the button became checked, `discard` when it became unchecked. */
  function Toggle(s: set<Path>, path: Path, checked: bool): (r: set<Path>)
    ensures path in r <==> checked
    ensures forall q :: q != path ==> (q in r <==> q in s)
  {
    if checked then s + {path} else s - {path}
  }

  /** The same toggle twice has the effect of one. */
  lemma ToggleIdempotent(s: set<Path>, path: Path, checked: bool)
    ensures Toggle(Toggle(s, path, checked), path, checked) == Toggle(s, path, checked)
  {
  }

  /** Unchecking a path that is not selected changes nothing (`discard`, not `remove`). */
  lemma UncheckAbsentIsNoOp(s: set<Path>, path: Path)
    requires path !in s
    ensures Toggle(s, path, false) == s
  {
  }

  /** Checking and then unchecking a button restores the selection it started from. */
  lemma ToggleUndo(s: set<Path>, path: Path, checked: bool)
    requires (path in s) != checked
    ensures Toggle(Toggle(s, path, checked), path, !checked) == s
  {
  }

  /** A button's state change, as the dialog receives it. */
  datatype ToggleEvent = Toggled(path: Path, checked: bool)

  /** The selection after a series of toggles. */
  function ApplyToggles(s: set<Path>, events: seq<ToggleEvent>): set<Path>
    decreases |events|
  {
    if |events| == 0 then s
    else ApplyToggles(Toggle(s, events[0].path, events[0].checked), events[1..])
  }

  /** The state given to `path` by the last event about it, if any. */
  function LastToggle(events: seq<ToggleEvent>, path: Path): Option<bool>
    decreases |events|
  {
    if |events| == 0 then None
    else
      var last := events[|events| - 1];
      if last.path == path then Some(last.checked) else LastToggle(events[..|events| - 1], path)
  }

  /** Applying one more event toggles the state the earlier events left. */
  lemma {:induction false} ApplyTogglesSnoc(s: set<Path>, events: seq<ToggleEvent>, e: ToggleEvent)
    ensures ApplyToggles(s, events + [e]) == Toggle(ApplyToggles(s, events), e.path, e.checked)
    decreases |events|
  {
    if |events| > 0 {
      assert (events + [e])[1..] == events[1..] + [e];
      ApplyTogglesSnoc(Toggle(s, events[0].path, events[0].checked), events[1..], e);
    }
  }

  /** After any series of toggles a path is selected exactly when its last
      toggle checked it, or, if it was never toggled, when it was selected
      at the start. */
  lemma {:induction false} ApplyTogglesMembership(s: set<Path>, events: seq<ToggleEvent>, path: Path)
    ensures path in ApplyToggles(s, events) <==> LastToggle(events, path).GetOr(path in s)
    decreases |events|
  {
    if |events| > 0 {
      var init := events[..|events| - 1];
      var last := events[|events| - 1];
      assert events == init + [last];
      ApplyTogglesSnoc(s, init, last);
      ApplyTogglesMembership(s, init, path);
    }
  }

  /** `selected_paths()`: `list(self.selected_paths_set)`, each selected
      path once, in an order the set leaves open. */
  method SelectedPaths(s: set<Path>) returns (r: seq<Path>)
    ensures |r| == |s|
    ensures Distinct(r)
    ensures forall p :: p in r <==> p in s
  {
    r := [];
    var rest := s;
    while rest != {}
      invariant rest <= s
      invariant forall p :: p in r <==> p in s && p !in rest
      invariant Distinct(r)
      invariant |r| + |rest| == |s|
      decreases |rest|
    {
      var p :| p in rest;
      r := r + [p];
      rest := rest - {p};
    }
  }

  /** One button of the dialog. */
  datatype ProjectButton = ProjectButton(
    path: Path,
    name: string,
    icon: Option<Path>,
    checked: bool,
    cell: Cell)

  /** The dialog's `populate_projects`, in a dialog `width` pixels wide. */
  function DialogButtons(projects: seq<Path>, selection: set<Path>, width: int, fs: FileSystem): (r: seq<ProjectButton>)
    ensures |r| == |projects|
    ensures forall i :: 0 <= i < |r| ==> r[i].path == projects[i] && r[i].name == Basename(projects[i])
    ensures forall i :: 0 <= i < |r| ==> (r[i].checked <==> projects[i] in selection)
    ensures forall i :: 0 <= i < |r| ==> r[i].icon == FindProjectIcon(fs, projects[i])
    ensures var cols := Columns(AvailableWidth(width));
      forall i :: 0 <= i < |r| ==> r[i].cell.col < cols && IndexOf(r[i].cell, cols) == i
  {
    var cols := Columns(AvailableWidth(width));
    seq(|projects|, i requires 0 <= i < |projects| =>
      ProjectButton(projects[i], Basename(projects[i]), FindProjectIcon(fs, projects[i]),
                    projects[i] in selection, CellOf(i, cols)))
  }

  /** The dialog's buttons occupy distinct cells, in reading order. */
  lemma DialogButtonsRowMajor(projects: seq<Path>, selection: set<Path>, width: int, fs: FileSystem, i: nat, j: nat)
    requires i < j < |projects|
    ensures RowMajorBefore(DialogButtons(projects, selection, width, fs)[i].cell,
                           DialogButtons(projects, selection, width, fs)[j].cell)
  {
    var cols := Columns(AvailableWidth(width));
    var r := DialogButtons(projects, selection, width, fs);
    assert r[i].cell == CellOf(i, cols) && r[j].cell == CellOf(j, cols);
    CellsRowMajor(i, j, cols);
  }
}

=== FILE: json.dfy ===
/** The already-parsed content of the editor's `storage.json`, and the two
    dictionary operations the launcher applies to it. An object keeps its
    members in document order; as with Python's `json.load`, a repeated key
    keeps the position of its first occurrence and the value of its last. */
module Json {
  import opened Wrappers
  import opened Seqs

  datatype Json =
    | JNull
    | JBool(b: bool)
    | JNumber(n: int)
    | JString(s: string)
    | JArray(items: seq<Json>)
    | JObject(members: seq<(string, Json)>)

  /** Some member is named `key`. */
  predicate HasName(members: seq<(string, Json)>, key: string) {
    exists i :: 0 <= i < |members| && members[i].0 == key
  }

  /** `members[i]` is the last member named `key`. */
  predicate IsLastNamed(members: seq<(string, Json)>, key: string, i: int) {
    && 0 <= i < |members|
    && members[i].0 == key
    && forall j :: i < j < |members| ==> members[j].0 != key
  }

  /** The position of the first member named `key`. */
  function FirstPos(members: seq<(string, Json)>, key: string): (i: nat)
    requires HasName(members, key)
    ensures i < |members| && members[i].0 == key
    ensures forall j :: 0 <= j < i ==> members[j].0 != key
    decreases |members|
  {
    if members[0].0 == key then 0
    else
      var k :| 0 <= k < |members| && members[k].0 == key;
      assert members[1..][k - 1].0 == key;
      1 + FirstPos(members[1..], key)
  }

  /** `d.get(key)` on an object: the value of the last member named `key`. */
  function Lookup(members: seq<(string, Json)>, key: string): (r: Option<Json>)
    ensures r.None? <==> !HasName(members, key)
    ensures r.Some? ==> exists i :: IsLastNamed(members, key, i) && members[i].1 == r.value
  {
    LookupBefore(members, key, |members|)
  }

  /** The value of the last member named `key` among the first `n`. */
  function LookupBefore(members: seq<(string, Json)>, key: string, n: nat): (r: Option<Json>)
    requires n <= |members|
    ensures r.None? <==> forall i :: 0 <= i < n ==> members[i].0 != key
    ensures r.Some? ==>
      exists i :: 0 <= i < n && members[i].0 == key && members[i].1 == r.value && (forall j :: i < j < n ==> members[j].0 != key)
    decreases n
  {
    if n == 0 then None
    else if members[n - 1].0 == key then Some(members[n - 1].1)
    else LookupBefore(members, key, n - 1)
  }

  /** `d.get(key, {})` */
  function GetOrEmpty(members: seq<(string, Json)>, key: string): (r: Json)
    ensures !HasName(members, key) ==> r == JObject([])
    ensures HasName(members, key) ==> Lookup(members, key) == Some(r)
  {
    Lookup(members, key).GetOr(JObject([]))
  }

  /** `d.keys()`: every member name once, in order of first occurrence. */
  function Keys(members: seq<(string, Json)>): (r: seq<string>)
    ensures Distinct(r)
    ensures forall k :: k in r <==> HasName(members, k)
    decreases |members|
  {
    if |members| == 0 then []
    else
      var init := members[..|members| - 1];
      var k := members[|members| - 1].0;
      var rest := Keys(init);
      assert forall x :: HasName(init, x) ==> HasName(members, x) by {
        forall x | HasName(init, x)
          ensures HasName(members, x)
        {
          var i :| 0 <= i < |init| && init[i].0 == x;
          assert members[i].0 == x;
        }
      }
      if k in rest then rest else rest + [k]
  }

  /** A name that occurs among the first `n` members is first found at the same place in all of them. */
  lemma FirstPosOfPrefix(members: seq<(string, Json)>, n: nat)
    requires n <= |members|
    ensures forall x :: HasName(members[..n], x) ==> HasName(members, x) && FirstPos(members, x) == FirstPos(members[..n], x)
  {
    forall x | HasName(members[..n], x)
      ensures HasName(members, x) && FirstPos(members, x) == FirstPos(members[..n], x)
    {
      var i := FirstPos(members[..n], x);
      assert members[i].0 == x;
      var j := FirstPos(members, x);
      assert !(j < i);
    }
  }

  /** The names in `r` all occur among `members`, in the order of their first occurrence. */
  predicate InFirstOccurrenceOrder(members: seq<(string, Json)>, r: seq<string>) {
    forall i, j :: 0 <= i < j < |r| ==>
      HasName(members, r[i]) && HasName(members, r[j]) && FirstPos(members, r[i]) < FirstPos(members, r[j])
  }

  /** Adding one member keeps the order of the names before it, and a new
      name placed last comes after all of them. */
  lemma OrderStep(members: seq<(string, Json)>, rest: seq<string>)
    requires |members| > 0
    requires forall x :: x in rest ==> HasName(members[..|members| - 1], x)
    requires InFirstOccurrenceOrder(members[..|members| - 1], rest)
    ensures InFirstOccurrenceOrder(members, rest)
    ensures !HasName(members[..|members| - 1], members[|members| - 1].0) ==>
      InFirstOccurrenceOrder(members, rest + [members[|members| - 1].0])
  {
    var n := |members| - 1;
    var init := members[..n];
    var k := members[n].0;
    FirstPosOfPrefix(members, n);
    assert forall x :: x in rest ==> FirstPos(members, x) == FirstPos(init, x) < n;
    if !HasName(init, k) {
      assert forall m :: 0 <= m < n ==> members[m].0 != k by {
        forall m | 0 <= m < n
          ensures members[m].0 != k
        {
          assert init[m] == members[m];
        }
      }
      assert HasName(members, k);
      assert FirstPos(members, k) == n;
      var r := rest + [k];
      forall i, j | 0 <= i < j < |r|
        ensures HasName(members, r[i]) && HasName(members, r[j]) && FirstPos(members, r[i]) < FirstPos(members, r[j])
      {
        assert r[i] in rest;
        if j < |rest| {
          assert r[j] in rest;
        }
      }
    }
  }

  /** `d.keys()` lists the names in the order of their first occurrence. */
  lemma {:induction false} KeysInFirstOccurrenceOrder(members: seq<(string, Json)>)
    ensures InFirstOccurrenceOrder(members, Keys(members))
    decreases |members|
  {
    if |members| > 0 {
      var init := members[..|members| - 1];
      KeysInFirstOccurrenceOrder(init);
      OrderStep(members, Keys(init));
    }
  }

  /** Keys of an object written without repeated names are its member names in order. */
  lemma {:induction false} KeysOfDistinct(members: seq<(string, Json)>)
    requires forall i, j :: 0 <= i < j < |members| ==> members[i].0 != members[j].0
    ensures Keys(members) == seq(|members|, i requires 0 <= i < |members| => members[i].0)
    decreases |members|
  {
    if |members| > 0 {
      var init := members[..|members| - 1];
      KeysOfDistinct(init);
      var k := members[|members| - 1].0;
      assert k !in Keys(init);
    }
  }
}

=== FILE: launcher.dfy ===
/** The launcher window's own logic (`VSCodeLauncher`): the search filter
    with its project count, the grid of project buttons, and opening a
    project with the editor. */
module Launcher {
  import opened Wrappers
  import opened Seqs
  import opened Text
  import opened Paths
  import opened Host
  import opened Grid
  import opened Executable

  /** `search_text in os.path.basename(p).lower()` with `search_text` already lower-cased. */
  predicate Matches(query: string, path: Path) {
    Contains(Lower(Basename(path)), Lower(query))
  }

  /** `filter_projects`: the projects whose base name contains the query,
      ignoring letter case, in their original order. */
  function FilterProjects(projects: seq<Path>, query: string): (r: seq<Path>)
    ensures IsSubseq(r, projects)
    ensures forall p :: p in r <==> p in projects && Matches(query, p)
    ensures forall p :: multiset(r)[p] == if Matches(query, p) then multiset(projects)[p] else 0
  {
    Filter(projects, p => Matches(query, p))
  }

  /** A match means the lower-cased query occurs somewhere in the lower-cased base name. */
  lemma MatchesIff(query: string, path: Path)
    ensures Matches(query, path) <==> exists i :: OccursAt(Lower(Basename(path)), Lower(query), i)
  {
    ContainsIff(Lower(Basename(path)), Lower(query));
  }

  /** The empty query shows every project. */
  lemma EmptyQueryKeepsAll(projects: seq<Path>)
    ensures FilterProjects(projects, "") == projects
  {
    forall p | p in projects
      ensures Matches("", p)
    {
      ContainsEmpty(Lower(Basename(p)));
    }
    FilterAll(projects, p => Matches("", p));
  }

  /** The letter case of the query does not matter. */
  lemma QueryCaseIgnored(projects: seq<Path>, query: string)
    ensures FilterProjects(projects, query) == FilterProjects(projects, Lower(query))
  {
    LowerIdempotent(query);
    FilterCongruent(projects, p => Matches(query, p), p => Matches(Lower(query), p));
  }

  /** What the window shows: all projects, the filtered ones on the grid, and
      the number in the header's count label. */
  datatype View = View(projects: seq<Path>, filtered: seq<Path>, shownCount: nat)

  /** The grid holds some of the projects, in their order, and the label counts the grid. */
  predicate Consistent(v: View) {
    IsSubseq(v.filtered, v.projects) && v.shownCount == |v.filtered|
  }

  /** The window as `__init__` sets it up: every project shown and counted. */
  function OpenWindow(projects: seq<Path>): (v: View)
    ensures Consistent(v)
    ensures v.projects == projects && v.filtered == projects
  {
    SubseqRefl(projects);
    View(projects, projects, |projects|)
  }

  /** A change of the search text: filter the full list again and update the label. */
  function Search(v: View, query: string): (w: View)
    ensures Consistent(w)
    ensures w.projects == v.projects
    ensures forall p :: p in w.filtered <==> p in v.projects && Matches(query, p)
    ensures forall p :: multiset(w.filtered)[p] == if Matches(query, p) then multiset(v.projects)[p] else 0
  {
    var filtered := FilterProjects(v.projects, query);
    View(v.projects, filtered, |filtered|)
  }

  /** Every search starts from the full list, so earlier searches leave no trace. */
  lemma SearchForgetsEarlierSearches(v: View, q1: string, q2: string)
    ensures Search(Search(v, q1), q2) == Search(v, q2)
  {
  }

  /** Clearing the search brings back the whole list. */
  lemma ClearingSearchRestores(v: View, query: string)
    ensures Search(Search(v, query), "").filtered == v.projects
  {
    EmptyQueryKeepsAll(v.projects);
  }

  /** The width `populate_projects` lays out in: the scroll area's viewport, or
      the window itself when the scroll area does not exist yet. */
  function LayoutWidth(viewportWidth: Option<int>, windowWidth: int): int {
    AvailableWidth(viewportWidth.GetOr(windowWidth))
  }

  /** The cells of the grid's buttons, one per filtered project. */
  function WindowCells(v: View, viewportWidth: Option<int>, windowWidth: int): (r: seq<Cell>)
    ensures |r| == |v.filtered|
    ensures var cols := Columns(LayoutWidth(viewportWidth, windowWidth));
      forall i :: 0 <= i < |r| ==> r[i].col < cols && IndexOf(r[i], cols) == i
    ensures forall i, j :: 0 <= i < j < |r| ==> RowMajorBefore(r[i], r[j])
  {
    var cols := Columns(LayoutWidth(viewportWidth, windowWidth));
    PlacementsRowMajor(|v.filtered|, cols);
    Placements(|v.filtered|, cols)
  }

  /** What clicking a project leads to. */
  datatype OpenOutcome =
    | ExecutableNotFound            // the "Could not find VS Code executable" message
    | Launched(command: seq<string>)
    | LaunchFailed                  // Popen raised: the "Failed to open project" message

  /** `open_project(path)`; `spawnSucceeds` stands for whether `Popen` raised. */
  function OpenProject(env: Env, fs: FileSystem, lookup: LookupOutcome, path: Path, spawnSucceeds: bool): (r: OpenOutcome)
    ensures r == ExecutableNotFound <==> FindExecutable(env, fs, lookup).None?
    ensures r.Launched? ==> |r.command| == 2 && fs.pathExists(r.command[0]) && r.command[1] == path
    ensures r.Launched? <==> FindExecutable(env, fs, lookup).Some? && spawnSucceeds
    ensures r.Launched? ==> r.command == [FindExecutable(env, fs, lookup).value, path]
  {
    match FindExecutable(env, fs, lookup)
    case None => ExecutableNotFound
    case Some(exe) => if spawnSucceeds then Launched([exe, path]) else LaunchFailed
  }
}

=== FILE: paths.dfy ===
/** Windows path handling as Python's `ntpath` performs it for the paths the
    launcher builds: `os.path.join` with plain components, and
    `os.path.basename`. Both `\` and `/` separate components. */
module Paths {

  type Path = string

  predicate IsSep(c: char) {
    c == '\\' || c == '/'
  }

  predicate NoSep(s: string) {
    forall i :: 0 <= i < |s| ==> !IsSep(s[i])
  }

  /** `p` begins with a drive such as `c:`. */
  predicate HasDrive(p: Path) {
    |p| >= 2 && p[1] == ':' && !IsSep(p[0])
  }

  /** The length of the drive part of `p`: 2 for `c:...`, 0 otherwise. */
  function DriveLength(p: Path): (n: nat)
    ensures n <= |p|
    ensures n == 0 || n == 2
  {
    if HasDrive(p) then 2 else 0
  }

  /** The index just past the last separator of `p` at or after `lo`, or `lo` when there is none. */
  function TailStart(p: Path, lo: nat, j: nat): (k: nat)
    requires lo <= j <= |p|
    ensures lo <= k <= j
    ensures forall m :: k <= m < j ==> !IsSep(p[m])
    ensures k > lo ==> IsSep(p[k - 1])
    decreases j
  {
    if j > lo && !IsSep(p[j - 1]) then TailStart(p, lo, j - 1) else j
  }

  /** `os.path.basename(p)`: what follows the last separator after the drive. */
  function Basename(p: Path): (r: string)
    ensures NoSep(r)
    ensures |r| <= |p| - DriveLength(p) && r == p[|p| - |r|..]
    ensures |r| < |p| - DriveLength(p) ==> IsSep(p[|p| - |r| - 1])
  {
    p[TailStart(p, DriveLength(p), |p|)..]
  }

  /** `os.path.join(dir, name)` for a `name` that is a single component
      (no separator, no drive): a backslash is inserted unless `dir` is empty,
      is a bare drive, or already ends with a separator. */
  function Join(dir: Path, name: string): (r: Path)
    ensures dir <= r && |name| <= |r| && r[|r| - |name|..] == name
    ensures |r| == |dir| + |name| || (|r| == |dir| + |name| + 1 && r[|dir|] == '\\')
    ensures |r| == |dir| + |name| <==> |dir| == DriveLength(dir) || IsSep(dir[|dir| - 1])
  {
    if |dir| > DriveLength(dir) && !IsSep(dir[|dir| - 1]) then dir + "\\" + name else dir + name
  }

  /** Folding `Join` over several components (`os.path.join(a, b, c, ...)`). */
  function JoinAll(dir: Path, names: seq<string>): (r: Path)
    ensures dir <= r
    decreases |names|
  {
    if |names| == 0 then dir else JoinAll(Join(dir, names[0]), names[1..])
  }

  /** The base name of a joined path is the component that was joined. */
  lemma BasenameOfJoin(dir: Path, name: string)
    requires |name| > 0 && NoSep(name) && ':' !in name
    ensures Basename(Join(dir, name)) == name
  {
    var p := Join(dir, name);
    var k := TailStart(p, DriveLength(p), |p|);
    assert p[|p| - |name|..] == name;
    if |dir| > DriveLength(dir) && !IsSep(dir[|dir| - 1]) {
      assert IsSep(p[|dir|]);
      assert DriveLength(p) <= |dir|;
    } else if |dir| == DriveLength(dir) {
      if |dir| == 0 {
        assert p == name;
        assert !HasDrive(p) by { if |p| >= 2 { assert p[1] in name; } }
      } else {
        assert DriveLength(p) == 2;
      }
    } else {
      assert IsSep(p[|dir| - 1]);
      assert DriveLength(p) <= |dir| - 1;
    }
    assert k == |p| - |name|;
  }

  /** Joining onto a path that ends in a name component puts a backslash
      between what the path ended with and the new name. */
  lemma JoinKeepsSuffix(dir: Path, tail: string, name: string)
    requires |dir| > 2 && !IsSep(dir[|dir| - 1]) && |tail| <= |dir| && dir[|dir| - |tail|..] == tail
    ensures var r := Join(dir, name);
      |tail| + 1 + |name| <= |r| && r[|r| - (|tail| + 1 + |name|)..] == tail + "\\" + name
  {
    var r := Join(dir, name);
    assert r == dir + "\\" + name;
    assert r[|r| - (|tail| + 1 + |name|)..] == dir[|dir| - |tail|..] + "\\" + name;
  }

  /** `join(dir, a, b)` ends with `a\b` when `a` is a name of more than two characters. */
  lemma JoinTwoSuffix(dir: Path, a: string, b: string)
    requires |a| > 2 && !IsSep(a[|a| - 1])
    ensures var r := Join(Join(dir, a), b);
      |a| + 1 + |b| <= |r| && r[|r| - (|a| + 1 + |b|)..] == a + "\\" + b
  {
    var x := Join(dir, a);
    assert x[|x| - 1] == a[|a| - 1];
    JoinKeepsSuffix(x, a, b);
  }

  /** `join(dir, a, b, c)` ends with `a\b\c` when `a` and `b` are names, `a` of more than two characters. */
  lemma JoinThreeSuffix(dir: Path, a: string, b: string, c: string)
    requires |a| > 2 && !IsSep(a[|a| - 1]) && |b| > 0 && !IsSep(b[|b| - 1])
    ensures var r := Join(Join(Join(dir, a), b), c);
      |a| + |b| + |c| + 2 <= |r| && r[|r| - (|a| + |b| + |c| + 2)..] == a + "\\" + b + "\\" + c
  {
    var x := Join(Join(dir, a), b);
    JoinTwoSuffix(dir, a, b);
    assert x[|x| - 1] == b[|b| - 1];
    JoinKeepsSuffix(x, a + "\\" + b, c);
  }
}

=== FILE: percent.dfy ===
/** Percent-decoding of URI text (section 2.1 of RFC 3986) as Python's
    `urllib.parse.unquote` performs it: a `%` followed by two hexadecimal
    digits stands for the octet they spell; any other `%` is kept as it is
    and decoding resumes at the very next character. Decoded octets are read
    as the character with the same code (the UTF-8 assembly of octets
    0x80..0xFF is outside this model). */
module Percent {

  predicate IsHexDigit(c: char) {
    ('0' <= c <= '9') || ('a' <= c <= 'f') || ('A' <= c <= 'F')
  }

  function HexValue(c: char): (v: nat)
    requires IsHexDigit(c)
    ensures v < 16
    ensures '0' <= c <= '9' ==> v == c as int - '0' as int
    ensures 'a' <= c <= 'f' ==> v == c as int - 'a' as int + 10
    ensures 'A' <= c <= 'F' ==> v == c as int - 'A' as int + 10
  {
    if '0' <= c <= '9' then c as int - '0' as int
    else if 'a' <= c <= 'f' then c as int - 'a' as int + 10
    else c as int - 'A' as int + 10
  }

  /** The upper-case hexadecimal digit for `v`. */
  function HexDigit(v: nat): (c: char)
    requires v < 16
    ensures IsHexDigit(c) && HexValue(c) == v
  {
    if v < 10 then ('0' as int + v) as char else ('A' as int + v - 10) as char
  }

  /** `s` begins with a well-formed escape `%XX`. */
  predicate StartsWithEscape(s: string) {
    |s| >= 3 && s[0] == '%' && IsHexDigit(s[1]) && IsHexDigit(s[2])
  }

  /** `unquote(s)`: every well-formed escape `%XX` becomes the character with
      code XX; everything else, including a malformed `%`, is kept. */
  function Decode(s: string): (r: string)
    ensures |r| <= |s|
    ensures |r| == 0 <==> |s| == 0
    ensures StartsWithEscape(s) ==> r[0] as int == 16 * HexValue(s[1]) + HexValue(s[2])
    ensures |s| > 0 && !StartsWithEscape(s) ==> r[0] == s[0]
    ensures StartsWithEscape(s) && |s| == 3 ==> |r| == 1
    decreases |s|
  {
    if |s| == 0 then []
    else if StartsWithEscape(s) then
      [(16 * HexValue(s[1]) + HexValue(s[2])) as char] + Decode(s[3..])
    else [s[0]] + Decode(s[1..])
  }

  /** A well-formed escape `%XX` begins at index `i` of `s`. */
  predicate EscapeAt(s: string, i: int) {
    0 <= i && i + 3 <= |s| && s[i] == '%' && IsHexDigit(s[i + 1]) && IsHexDigit(s[i + 2])
  }

  /** Decoding `s` splits at index `n` when no escape begins just before it. */
  lemma {:induction false} DecodeSplit(s: string, n: int)
    requires 0 <= n <= |s|
    requires !EscapeAt(s, n - 1) && !EscapeAt(s, n - 2)
    ensures Decode(s) == Decode(s[..n]) + Decode(s[n..])
    decreases n
  {
    if n == 0 {
      assert s[..0] == [] && s[0..] == s;
    } else {
      var k := if StartsWithEscape(s) then 3 else 1;
      assert k <= n by { assert StartsWithEscape(s) ==> EscapeAt(s, 0); }
      EscapeAtShift(s, k, n);
      DecodeSplit(s[k..], n - k);
      if k == 3 { DecodeSplitEscape(s, n); } else { DecodeSplitPlain(s, n); }
    }
  }

  /** Dropping the leading unit of `k` characters moves the escapes that
      begin after it `k` places left; none begins inside it. */
  lemma EscapeAtShift(s: string, k: nat, n: int)
    requires k == if StartsWithEscape(s) then 3 else 1
    requires k <= n <= |s|
    ensures EscapeAt(s[k..], n - k - 1) == EscapeAt(s, n - 1)
    ensures EscapeAt(s[k..], n - k - 2) == EscapeAt(s, n - 2)
  {
    forall i | n - 2 <= i < n && 0 <= i
      ensures EscapeAt(s[k..], i - k) == EscapeAt(s, i)
    {
      if i < k {
        assert !EscapeAt(s, i) by {
          if i > 0 { assert IsHexDigit(s[i]); }
        }
      } else if i + 3 <= |s| {
        assert s[k..][i - k] == s[i] && s[k..][i - k + 1] == s[i + 1] && s[k..][i - k + 2] == s[i + 2];
      }
    }
  }

  /** One step of `DecodeSplit` past a leading escape: the split of `s`
      follows from the split of what remains after the escape. */
  lemma DecodeSplitEscape(s: string, n: int)
    requires StartsWithEscape(s) && 3 <= n <= |s|
    requires Decode(s[3..]) == Decode(s[3..][..n - 3]) + Decode(s[3..][n - 3..])
    ensures Decode(s) == Decode(s[..n]) + Decode(s[n..])
  {
    var head := [(16 * HexValue(s[1]) + HexValue(s[2])) as char];
    DecodePrefixEscape(s, n);
    assert Decode(s) == head + Decode(s[3..]);
    assert s[3..][n - 3..] == s[n..];
    AppendAssoc(head, Decode(s[3..][..n - 3]), Decode(s[n..]), Decode(s), Decode(s[..n]));
  }

  /** A prefix of `s` that contains its leading escape begins with it too. */
  lemma DecodePrefixEscape(s: string, n: int)
    requires StartsWithEscape(s) && 3 <= n <= |s|
    ensures Decode(s[..n]) == [(16 * HexValue(s[1]) + HexValue(s[2])) as char] + Decode(s[3..][..n - 3])
  {
    var u := s[..n];
    assert u[3..] == s[3..][..n - 3];
    assert StartsWithEscape(u) && u[1] == s[1] && u[2] == s[2];
  }

  /** One step of `DecodeSplit` past a leading character that is kept. */
  lemma DecodeSplitPlain(s: string, n: int)
    requires !StartsWithEscape(s) && 1 <= n <= |s|
    requires Decode(s[1..]) == Decode(s[1..][..n - 1]) + Decode(s[1..][n - 1..])
    ensures Decode(s) == Decode(s[..n]) + Decode(s[n..])
  {
    DecodePrefixPlain(s, n);
    assert Decode(s) == [s[0]] + Decode(s[1..]);
    assert s[1..][n - 1..] == s[n..];
    AppendAssoc([s[0]], Decode(s[1..][..n - 1]), Decode(s[n..]), Decode(s), Decode(s[..n]));
  }

  /** A non-empty prefix of `s` keeps its leading character as `s` does. */
  lemma DecodePrefixPlain(s: string, n: int)
    requires !StartsWithEscape(s) && 1 <= n <= |s|
    ensures Decode(s[..n]) == [s[0]] + Decode(s[1..][..n - 1])
  {
    var u := s[..n];
    assert u[1..] == s[1..][..n - 1];
    assert u[0] == s[0];
    assert StartsWithEscape(u) ==> StartsWithEscape(s) by {
      if |u| >= 3 { assert u[1] == s[1] && u[2] == s[2]; }
    }
  }

  /** Concatenation is associative: a text that is `x` then `y` then `z`
      is `x + y` followed by `z`. */
  lemma AppendAssoc(x: string, y: string, z: string, whole: string, front: string)
    requires whole == x + (y + z) && front == x + y
    ensures whole == front + z
  {
  }

  /** Decoding works piece by piece: text that no escape straddles decodes
      to the decodings of its parts. Together with the leading-character
      clauses of `Decode` this determines the result on every input. */
  lemma DecodeAppend(a: string, b: string)
    requires !EscapeAt(a + b, |a| - 1) && !EscapeAt(a + b, |a| - 2)
    ensures Decode(a + b) == Decode(a) + Decode(b)
  {
    DecodeSplit(a + b, |a|);
    assert (a + b)[..|a|] == a && (a + b)[|a|..] == b;
  }

  /** A `%` not followed by two hexadecimal digits is kept as it is, wherever
      it stands, and decoding resumes at the very next character. */
  lemma DecodeKeepsMalformedPercent(a: string, b: string)
    requires !(|b| >= 2 && IsHexDigit(b[0]) && IsHexDigit(b[1]))
    ensures Decode(a + ['%'] + b) == Decode(a) + ['%'] + Decode(b)
  {
    var s := a + ['%'] + b;
    assert s[|a|] == '%' && !IsHexDigit('%');
    DecodeSplit(s, |a|);
    assert s[..|a|] == a;
    var t := s[|a|..];
    assert t == ['%'] + b && !StartsWithEscape(t);
    assert t[1..] == b;
  }

  /** Text without `%` decodes to itself (unquote's fast path). */
  lemma {:induction false} DecodeWithoutPercent(s: string)
    requires '%' !in s
    ensures Decode(s) == s
    decreases |s|
  {
    if |s| > 0 {
      assert '%' !in s[1..];
      DecodeWithoutPercent(s[1..]);
    }
  }

  /** Characters that the encoder below leaves as they are: the unreserved
      characters of section 2.3 of RFC 3986, and characters beyond one octet. */
  predicate KeptLiteral(c: char) {
    || ('a' <= c <= 'z') || ('A' <= c <= 'Z') || ('0' <= c <= '9')
    || c == '-' || c == '.' || c == '_' || c == '~' || c as int >= 256
  }

  /** Percent-encoding of a single character. */
  function EncodeChar(c: char): (r: string)
    ensures |r| == 1 || |r| == 3
    ensures |r| == 1 <==> KeptLiteral(c)
    ensures |r| == 1 ==> r[0] == c
    ensures |r| == 3 ==> StartsWithEscape(r) && 16 * HexValue(r[1]) + HexValue(r[2]) == c as int
  {
    if KeptLiteral(c) then [c]
    else ['%', HexDigit(c as int / 16), HexDigit(c as int % 16)]
  }

  /** The percent-encoding that `Decode` undoes: one escape per character
      below 256. It agrees with Python's `quote(s, safe='')` on ASCII
      characters only, since `quote` escapes the UTF-8 bytes of the others. */
  function Encode(s: string): (r: string)
    ensures |r| >= |s|
    decreases |s|
  {
    if |s| == 0 then [] else EncodeChar(s[0]) + Encode(s[1..])
  }

  /** Round trip: decoding an encoded text gives the text back. */
  lemma {:induction false} DecodeEncode(s: string)
    ensures Decode(Encode(s)) == s
    decreases |s|
  {
    if |s| > 0 {
      var e := EncodeChar(s[0]);
      DecodeEncode(s[1..]);
      assert Encode(s) == e + Encode(s[1..]);
      if |e| == 1 {
        assert !StartsWithEscape(e + Encode(s[1..])) by {
          if KeptLiteral(s[0]) { assert e[0] != '%'; }
        }
        assert (e + Encode(s[1..]))[1..] == Encode(s[1..]);
      } else {
        assert (e + Encode(s[1..]))[3..] == Encode(s[1..]);
        assert (16 * HexValue(e[1]) + HexValue(e[2])) as char == s[0];
      }
    }
  }

  /** An escaped slash decodes to a slash. */
  lemma DecodeEscapedSlash()
    ensures Decode("%2F") == "/" && Decode("%2f") == "/"
  {
  }
}

=== FILE: seqs.dfy ===
/** Order-preserving sequence operations shared by the discovery pipeline,
    the search filter and the first-match lookups. */
module Seqs {
  import opened Wrappers

  /** No element occurs twice in `s`. */
  predicate Distinct<T(==)>(s: seq<T>) {
    forall i, j :: 0 <= i < j < |s| ==> s[i] != s[j]
  }

  /** `a` can be obtained from `b` by deleting elements (order preserved). */
  predicate IsSubseq<T(==)>(a: seq<T>, b: seq<T>)
    decreases |b|
  {
    || |a| == 0
    || (|b| > 0 && ((a[0] == b[0] && IsSubseq(a[1..], b[1..])) || IsSubseq(a, b[1..])))
  }

  /** Every sequence is a subsequence of itself. */
  lemma {:induction false} SubseqRefl<T>(s: seq<T>)
    ensures IsSubseq(s, s)
    decreases |s|
  {
    if |s| > 0 {
      SubseqRefl(s[1..]);
    }
  }

  /** `[x for x in s if keep(x)]` */
  function Filter<T(==,!new)>(s: seq<T>, keep: T -> bool): (r: seq<T>)
    ensures |r| <= |s|
    ensures IsSubseq(r, s)
    ensures forall x :: x in r <==> x in s && keep(x)
    ensures forall x :: multiset(r)[x] == if keep(x) then multiset(s)[x] else 0
    decreases |s|
  {
    if |s| == 0 then []
    else
      var rest := Filter(s[1..], keep);
      assert s == [s[0]] + s[1..];
      if keep(s[0]) then [s[0]] + rest else rest
  }

  /** Filtering keeps everything exactly when every element passes. */
  lemma {:induction false} FilterAll<T(!new)>(s: seq<T>, keep: T -> bool)
    requires forall x :: x in s ==> keep(x)
    ensures Filter(s, keep) == s
    decreases |s|
  {
    if |s| > 0 {
      FilterAll(s[1..], keep);
    }
  }

  /** Filtering depends only on the verdicts of the predicate. */
  lemma {:induction false} FilterCongruent<T(!new)>(s: seq<T>, f: T -> bool, g: T -> bool)
    requires forall x :: f(x) == g(x)
    ensures Filter(s, f) == Filter(s, g)
    decreases |s|
  {
    if |s| > 0 {
      FilterCongruent(s[1..], f, g);
    }
  }

  /** `s[i]` is the first element of `s` that satisfies `p`. */
  predicate IsFirstWhere<T>(s: seq<T>, p: T -> bool, i: int) {
    0 <= i < |s| && p(s[i]) && forall j :: 0 <= j < i ==> !p(s[j])
  }

  /** The index of the first element satisfying `p` (a Python `for ... if ...: return`). */
  function FirstIndex<T>(s: seq<T>, p: T -> bool): (r: Option<nat>)
    ensures r.Some? ==> IsFirstWhere(s, p, r.value)
    ensures forall i :: IsFirstWhere(s, p, i) ==> r == Some(i)
    ensures r.None? <==> forall j :: 0 <= j < |s| ==> !p(s[j])
    decreases |s|
  {
    if |s| == 0 then None
    else if p(s[0]) then Some(0)
    else
      match FirstIndex(s[1..], p)
      case None => None
      case Some(k) => Some(k + 1)
  }

  /** The first match in a prefix is the first match in the whole sequence. */
  lemma FirstWhereOfPrefix<T>(s: seq<T>, t: seq<T>, p: T -> bool, i: nat)
    requires s <= t && IsFirstWhere(s, p, i)
    ensures IsFirstWhere(t, p, i)
  {
    assert forall j :: 0 <= j < |s| ==> t[j] == s[j];
  }
}

=== FILE: stablesort.dfy ===
/** Python's `sorted(xs, key=f, reverse=True)`: a stable sort by descending
    key, so that elements with equal keys keep their original order. */
module StableSort {

  /** Keys never increase along `s`. */
  predicate NonIncreasing<T>(s: seq<T>, key: T -> int) {
    forall i, j :: 0 <= i < j < |s| ==> key(s[i]) >= key(s[j])
  }

  /** The elements of `s` whose key is `k`, in their order in `s`. */
  function WithKey<T>(s: seq<T>, key: T -> int, k: int): seq<T>
    decreases |s|
  {
    if |s| == 0 then []
    else if key(s[0]) == k then [s[0]] + WithKey(s[1..], key, k)
    else WithKey(s[1..], key, k)
  }

  /** `r` is the stable descending sort of `s`: sorted by key, and within every
      key the elements appear exactly as they do in `s`. */
  ghost predicate IsStableSortDesc<T>(s: seq<T>, r: seq<T>, key: T -> int) {
    NonIncreasing(r, key) && forall k :: WithKey(r, key, k) == WithKey(s, key, k)
  }

  /** Places `x` in front of the first element whose key is not larger than its own. */
  function Insert<T(==)>(x: T, s: seq<T>, key: T -> int): (r: seq<T>)
    ensures |r| == |s| + 1
    ensures multiset(r) == multiset(s) + multiset{x}
    ensures r[0] == x || (|s| > 0 && r[0] == s[0])
    decreases |s|
  {
    if |s| == 0 || key(s[0]) <= key(x) then [x] + s
    else
      assert s == [s[0]] + s[1..];
      [s[0]] + Insert(x, s[1..], key)
  }

  /** Insertion sort, inserting each element in front of the already sorted rest. */
  function SortDesc<T(==)>(s: seq<T>, key: T -> int): (r: seq<T>)
    ensures |r| == |s|
    ensures multiset(r) == multiset(s)
    ensures NonIncreasing(r, key)
    decreases |s|
  {
    if |s| == 0 then []
    else
      assert s == [s[0]] + s[1..];
      var rest := SortDesc(s[1..], key);
      InsertSorted(s[0], rest, key);
      Insert(s[0], rest, key)
  }

  /** Putting an element no smaller than the head in front of a sorted sequence keeps it sorted. */
  lemma ConsSorted<T>(h: T, t: seq<T>, key: T -> int)
    requires NonIncreasing(t, key) && (|t| == 0 || key(h) >= key(t[0]))
    ensures NonIncreasing([h] + t, key)
  {
    var r := [h] + t;
    forall i, j | 0 <= i < j < |r|
      ensures key(r[i]) >= key(r[j])
    {
      if i == 0 {
        assert r[j] == t[j - 1];
      } else {
        assert r[i] == t[i - 1] && r[j] == t[j - 1];
      }
    }
  }

  /** Inserting into a sorted sequence keeps it sorted. */
  lemma {:induction false} InsertSorted<T>(x: T, s: seq<T>, key: T -> int)
    requires NonIncreasing(s, key)
    ensures NonIncreasing(Insert(x, s, key), key)
    decreases |s|
  {
    if |s| == 0 || key(s[0]) <= key(x) {
      ConsSorted(x, s, key);
    } else {
      InsertSorted(x, s[1..], key);
      ConsSorted(s[0], Insert(x, s[1..], key), key);
    }
  }

  /** Inserting `x` adds it at the front of its own key class and leaves the other classes alone. */
  lemma {:induction false} InsertWithKey<T>(x: T, s: seq<T>, key: T -> int, k: int)
    ensures WithKey(Insert(x, s, key), key, k)
         == (if key(x) == k then [x] else []) + WithKey(s, key, k)
    decreases |s|
  {
    if |s| == 0 || key(s[0]) <= key(x) {
      assert ([x] + s)[1..] == s;
    } else {
      var r := Insert(x, s, key);
      assert r[1..] == Insert(x, s[1..], key);
      InsertWithKey(x, s[1..], key, k);
    }
  }

  /** The sort is stable: every key class keeps its original order. */
  lemma {:induction false} SortDescStable<T>(s: seq<T>, key: T -> int, k: int)
    ensures WithKey(SortDesc(s, key), key, k) == WithKey(s, key, k)
    decreases |s|
  {
    if |s| > 0 {
      SortDescStable(s[1..], key, k);
      InsertWithKey(s[0], SortDesc(s[1..], key), key, k);
    }
  }

  /** `SortDesc` meets the definition of a stable descending sort. */
  lemma SortDescIsStableSort<T>(s: seq<T>, key: T -> int)
    ensures IsStableSortDesc(s, SortDesc(s, key), key)
  {
    forall k
      ensures WithKey(SortDesc(s, key), key, k) == WithKey(s, key, k)
    {
      SortDescStable(s, key, k);
    }
  }

  /** A non-empty key class has a witness in the sequence. */
  lemma {:induction false} WithKeyWitness<T>(s: seq<T>, key: T -> int, k: int)
    requires |WithKey(s, key, k)| > 0
    ensures exists i :: 0 <= i < |s| && key(s[i]) == k
    decreases |s|
  {
    if key(s[0]) != k {
      WithKeyWitness(s[1..], key, k);
      var i :| 0 <= i < |s[1..]| && key(s[1..][i]) == k;
      assert key(s[i + 1]) == k;
    }
  }

  /** A sequence all of whose key classes are empty is empty. */
  lemma NoClassesEmpty<T>(s: seq<T>, key: T -> int)
    requires forall k :: WithKey(s, key, k) == []
    ensures s == []
  {
    var k := if |s| > 0 then key(s[0]) else 0;
    assert WithKey(s, key, k) == [];
  }

  /** There is only one stable descending sort, so any procedure meeting the
      specification of Python's `sorted(..., reverse=True)` agrees with `SortDesc`. */
  lemma {:induction false} StableSortUnique<T>(s: seq<T>, r1: seq<T>, r2: seq<T>, key: T -> int)
    requires IsStableSortDesc(s, r1, key) && IsStableSortDesc(s, r2, key)
    ensures r1 == r2
    decreases |r1|
  {
    if |r1| == 0 || |r2| == 0 {
      forall k
        ensures WithKey(r1, key, k) == WithKey(r2, key, k)
      {
        assert WithKey(r1, key, k) == WithKey(s, key, k);
      }
      if |r1| == 0 {
        NoClassesEmpty(r2, key);
      } else {
        NoClassesEmpty(r1, key);
      }
    } else {
      var k1, k2 := key(r1[0]), key(r2[0]);
      assert WithKey(r1, key, k1) == WithKey(s, key, k1) == WithKey(r2, key, k1);
      assert WithKey(r1, key, k2) == WithKey(s, key, k2) == WithKey(r2, key, k2);
      WithKeyWitness(r2, key, k1);
      WithKeyWitness(r1, key, k2);
      assert k1 == k2;
      assert r1[0] == WithKey(r1, key, k1)[0] == WithKey(r2, key, k1)[0] == r2[0];
      forall k
        ensures WithKey(r1[1..], key, k) == WithKey(r2[1..], key, k)
      {
        assert WithKey(r1, key, k) == WithKey(r2, key, k);
        if k == k1 {
          assert WithKey(r1, key, k)[1..] == WithKey(r1[1..], key, k);
          assert WithKey(r2, key, k)[1..] == WithKey(r2[1..], key, k);
        }
      }
      assert IsStableSortDesc(r1[1..], r1[1..], key);
      assert IsStableSortDesc(r1[1..], r2[1..], key);
      StableSortUnique(r1[1..], r1[1..], r2[1..], key);
      assert r1 == [r1[0]] + r1[1..] && r2 == [r2[0]] + r2[1..];
    }
  }

  /** One step of `Insert` when `x` goes in front. */
  lemma InsertFront<T>(x: T, s: seq<T>, key: T -> int)
    requires |s| == 0 || key(s[0]) <= key(x)
    ensures Insert(x, s, key) == [x] + s
  {
  }

  /** One step of `Insert` when `x` moves past the first element. */
  lemma InsertPast<T>(x: T, s: seq<T>, key: T -> int)
    requires |s| > 0 && key(s[0]) > key(x)
    ensures Insert(x, s, key) == [s[0]] + Insert(x, s[1..], key)
  {
  }

  /** Three elements with distinct keys come out in descending key order. */
  lemma ThreeElementsExample<T>(a: T, b: T, c: T, key: T -> int)
    requires key(b) > key(c) > key(a)
    ensures SortDesc([a, b, c], key) == [b, c, a]
  {
    var sc := SortDesc([c], key);
    assert [c][1..] == [];
    InsertFront(c, [], key);
    assert sc == [c];
    assert [b, c][1..] == [c];
    InsertFront(b, [c], key);
    var sbc := SortDesc([b, c], key);
    assert sbc == [b, c];
    assert [a, b, c][1..] == [b, c];
    InsertPast(a, [b, c], key);
    InsertPast(a, [c], key);
    InsertFront(a, [], key);
  }
}

=== FILE: text.dfy ===
/** The handful of Python `str` operations the launcher relies on:
    `lower`, `startswith`, `endswith`, `in`, `replace`, `strip` and
    `splitlines()[0]`. */
module Text {

  /** Python's `lower()` restricted to ASCII letters. */
  function LowerChar(c: char): (r: char)
    ensures 'A' <= c <= 'Z' ==> r as int == c as int + 32
    ensures !('A' <= c <= 'Z') ==> r == c
  {
    if 'A' <= c <= 'Z' then (c as int + 32) as char else c
  }

  function Lower(s: string): (r: string)
    ensures |r| == |s|
    ensures forall i :: 0 <= i < |s| ==> r[i] == LowerChar(s[i])
    ensures forall i :: 0 <= i < |r| ==> !('A' <= r[i] <= 'Z')
  {
    seq(|s|, i requires 0 <= i < |s| => LowerChar(s[i]))
  }

  /** Lower-casing twice is lower-casing once. */
  lemma LowerIdempotent(s: string)
    ensures Lower(Lower(s)) == Lower(s)
  {
  }

  /** `s.startswith(prefix)` */
  predicate StartsWith(s: string, prefix: string) {
    prefix <= s
  }

  /** `s.endswith(suffix)` */
  predicate EndsWith(s: string, suffix: string) {
    |suffix| <= |s| && s[|s| - |suffix|..] == suffix
  }

  /** `needle` occurs in `hay` starting at index `i`. */
  predicate OccursAt(hay: string, needle: string, i: int) {
    0 <= i && i + |needle| <= |hay| && hay[i..i + |needle|] == needle
  }

  /** `needle in hay`, computed by trying each start position in turn. */
  predicate Contains(hay: string, needle: string)
    decreases |hay|
  {
    needle <= hay || (|hay| > 0 && Contains(hay[1..], needle))
  }

  /** `Contains` holds exactly when the needle occurs at some position. */
  lemma {:induction false} ContainsIff(hay: string, needle: string)
    ensures Contains(hay, needle) <==> exists i :: OccursAt(hay, needle, i)
    decreases |hay|
  {
    if needle <= hay {
      assert OccursAt(hay, needle, 0);
    } else if |hay| > 0 {
      ContainsIff(hay[1..], needle);
      if Contains(hay[1..], needle) {
        var i :| OccursAt(hay[1..], needle, i);
        assert hay[i + 1..i + 1 + |needle|] == hay[1..][i..i + |needle|];
        assert OccursAt(hay, needle, i + 1);
      } else if exists i :: OccursAt(hay, needle, i) {
        var i :| OccursAt(hay, needle, i);
        assert i != 0;
        assert hay[1..][i - 1..i - 1 + |needle|] == hay[i..i + |needle|];
        assert OccursAt(hay[1..], needle, i - 1);
        assert false;
      }
    }
  }

  /** Every string contains the empty string. */
  lemma ContainsEmpty(hay: string)
    ensures Contains(hay, "")
  {
  }

  /** `s.replace('/', '\\')` */
  function ReplaceSlashes(s: string): (r: string)
    ensures |r| == |s|
    ensures '/' !in r
    ensures forall i :: 0 <= i < |s| && s[i] != '/' ==> r[i] == s[i]
    ensures forall i :: 0 <= i < |s| && s[i] == '/' ==> r[i] == '\\'
  {
    seq(|s|, i requires 0 <= i < |s| => if s[i] == '/' then '\\' else s[i])
  }

  /** Characters for which Python's `str.isspace()` holds. */
  predicate IsWhitespace(c: char) {
    var n := c as int;
    || (0x09 <= n <= 0x0D) || (0x1C <= n <= 0x20) || n == 0x85 || n == 0xA0
    || n == 0x1680 || (0x2000 <= n <= 0x200A) || n == 0x2028 || n == 0x2029
    || n == 0x202F || n == 0x205F || n == 0x3000
  }

  /** Characters at which Python's `str.splitlines()` ends a line. */
  predicate IsLineBreak(c: char) {
    var n := c as int;
    || (0x0A <= n <= 0x0D) || (0x1C <= n <= 0x1E) || n == 0x85 || n == 0x2028 || n == 0x2029
  }

  /** Every line break is whitespace, so `strip()` removes them at both ends. */
  lemma LineBreakIsWhitespace(c: char)
    ensures IsLineBreak(c) ==> IsWhitespace(c)
  {
  }

  /** Index of the first non-whitespace character of `s` at or after `i`, or `|s|`. */
  function TextStart(s: string, i: nat): (k: nat)
    requires i <= |s|
    ensures i <= k <= |s|
    ensures forall j :: i <= j < k ==> IsWhitespace(s[j])
    ensures k < |s| ==> !IsWhitespace(s[k])
    decreases |s| - i
  {
    if i < |s| && IsWhitespace(s[i]) then TextStart(s, i + 1) else i
  }

  /** One past the last non-whitespace character of `s` before `j`, or `lo`. */
  function TextEnd(s: string, lo: nat, j: nat): (k: nat)
    requires lo <= j <= |s|
    ensures lo <= k <= j
    ensures forall m :: k <= m < j ==> IsWhitespace(s[m])
    ensures k > lo ==> !IsWhitespace(s[k - 1])
    decreases j
  {
    if j > lo && IsWhitespace(s[j - 1]) then TextEnd(s, lo, j - 1) else j
  }

  /** `s[lo..hi]` is what remains of `s` once the whitespace at both ends is cut off. */
  predicate TrimmedAt(s: string, lo: int, hi: int) {
    && 0 <= lo <= hi <= |s|
    && (forall j :: 0 <= j < lo ==> IsWhitespace(s[j]))
    && (forall j :: hi <= j < |s| ==> IsWhitespace(s[j]))
    && (lo < hi ==> !IsWhitespace(s[lo]) && !IsWhitespace(s[hi - 1]))
  }

  /** `s.strip()`: the slice of `s` left after removing whitespace at both ends. */
  function Strip(s: string): (r: string)
    ensures exists lo, hi :: TrimmedAt(s, lo, hi) && r == s[lo..hi]
    ensures (forall i :: 0 <= i < |s| ==> IsWhitespace(s[i])) <==> |r| == 0
  {
    var lo := TextStart(s, 0);
    var hi := TextEnd(s, lo, |s|);
    s[lo..hi]
  }

  /** `s.splitlines()[0]` for a string that has at least one line: the text
      before the first line break. */
  function FirstLine(s: string): (r: string)
    ensures r <= s
    ensures forall i :: 0 <= i < |r| ==> !IsLineBreak(r[i])
    ensures |r| < |s| ==> IsLineBreak(s[|r|])
    decreases |s|
  {
    if |s| == 0 || IsLineBreak(s[0]) then [] else [s[0]] + FirstLine(s[1..])
  }

  /** A stripped, non-empty text has a non-empty first line. */
  lemma FirstLineOfStripped(s: string)
    requires |Strip(s)| > 0
    ensures |FirstLine(Strip(s))| > 0
  {
    var t := Strip(s);
    LineBreakIsWhitespace(t[0]);
  }
}

=== FILE: wrappers.dfy ===
/** Failure-carrying wrappers used for the places where the launcher returns
    `None` or swallows an exception. */
module Wrappers {

  /** A value that may be absent (Python's `None`). */
  datatype Option<+T> = None | Some(value: T) {

    /** The wrapped value, or `default` when absent. */
    function GetOr(default: T): T {
      match this
      case Some(v) => v
      case None => default
    }
  }

  /** Either a value or the reason it could not be produced. */
  datatype Result<+R, +E> = Success(value: R) | Failure(error: E) {

    /** The value, or `default` on failure: how a caught exception becomes a fallback value. */
    function GetOr(default: R): R {
      match this
      case Success(v) => v
      case Failure(_) => default
    }
  }
}
